=== FILE: README.md ===
# MPEG-TS muxer orchestrator, modelled in Dafny

This project models the muxing orchestrator of `ts/muxer.go`. The orchestrator turns H.264 and AAC access units into MPEG transport-stream writer calls. The model covers five things:

- stream registration, where the codec type picks the slot and the fixed PID;
- the single-program PAT and the PMT, which lists audio then video and always names PID 0x100 as the PCR carrier;
- per-access-unit PES framing, with a one-second timestamp bias;
- the Annex-B scatter layout for video, with ADTS-prefixed payloads for audio;
- end-of-session stuffing that brings each stream's 4-bit continuity counter back to 0.

The muxer is an immutable `Muxer` record with two optional stream slots, a PAT writer, a PMT writer and a sink. Each operation returns the next record and an `Outcome` (`Pass` or `Fail(error)`).

Files:

- `wrappers.dfy`: `Option` and `Outcome`.
- `av.dfy`: codec descriptors (`CodecData`, `CodecType`), access units (`Packet`) and `Second`.
- `tsio.dfy`: the transport-stream collaborators, stated abstractly. A scatter list is a sequence of symbolic `Chunk`s. PES, ADTS and PSI headers are constructors applied to the arguments the header fillers receive. `Aud` and `StartCode` are the two marker constants. The `Sink` is an append-only log of `WritePackets` calls, and each call is logged as accepted or rejected. A `TSWriter` is a PID and a continuity counter. `Env` holds the library behaviour the muxer cannot see: `PMT.Len`, `PSIHeaderLength`, packets per scatter list, and `SplitNALUs`.
- `muxer.dfy` (module `TsMuxer`): the core.
- `session.dfy`: properties that span several calls.

`TsMuxer.Valid` is the invariant every reachable muxer keeps:

- the audio slot holds only an AAC stream on PID 0x101;
- the video slot holds only an H.264 stream on PID 0x100;
- the PSI writers sit on the PAT and PMT PIDs.

`NewMuxer` establishes it, and every operation preserves it. `WritePacket` relies on it to read the AAC configuration from the audio slot and the SPS and PPS from the video slot.

## Behaviour of the code worth knowing

- The slot follows the codec's type (ts/muxer.go:67-87). An H.264 codec passed as the audio argument of `WriteHeader` becomes the video stream, and the mismatch raises no error.
- Writing a packet for a slot that was never registered is a nil dereference (ts/muxer.go:216, ts/muxer.go:228). Here it is a precondition of `WritePacket`.
- The PMT's PCR PID is the constant 0x100 (ts/muxer.go:167), even when no video stream exists.

## Model

| member | source | states |
|---|---|---|
| TsMuxer.NewMuxer | ts/muxer.go:35-47 | a new muxer has no streams and padding off, its PAT and PMT writers start at counter 0, and it satisfies the slot invariant |
| TsMuxer.NewStream | ts/muxer.go:50-93 | only H264 and AAC are accepted; any other type fails with UnsupportedCodec and changes nothing; H264 fills the video slot with PID 0x100 and a fresh writer, AAC fills the audio slot with PID 0x101; the other slot and the sink are untouched; the slot invariant is preserved |
| TsMuxer.PadCount | ts/muxer.go:96 | the number of stuffing packets needed is below 16, brings the counter to 0 mod 16, and is 0 exactly when the low four bits already are 0 |
| TsMuxer.Pad | ts/muxer.go:95-102 | emits only empty stuffing calls (PCR 0, no sync, padding) on the writer's PID, at most 15; on success, exactly PadCount calls and a counter that is 0 mod 16; the first rejected call is the last one logged and ends the loop; the loop succeeds exactly when the sink accepts all PadCount calls, so a sink that accepts every call always ends aligned; on failure exactly the sink's remaining allowance of calls was accepted before the rejected one |
| TsMuxer.WriteTrailer | ts/muxer.go:104-120 | with padding off nothing happens; otherwise only stuffing calls are written, audio ones strictly before video ones, at most 30; on success each present stream's counter is 0 mod 16; a rejected call is the last one logged; each stream's PadCount calls go on that stream's own PID, audio first, and no call goes on the PID of an absent stream; the trailer succeeds exactly when the sink accepts all the calls both streams need; streams, PSI writers and the padding flag are kept |
| TsMuxer.PmtInfos | ts/muxer.go:140-164 | the PMT lists an ADTS-AAC entry on the audio PID exactly when an audio stream exists and an H264 entry on the video PID exactly when a video stream exists, audio first, nothing else |
| TsMuxer.WritePatPmt | ts/muxer.go:127-185 | first one PAT call (program 1 pointing to the PMT PID) on the PAT writer; a rejected PAT stops there; a PMT that does not fit in 188 bytes with its header fails with PmtTooLarge after the PAT and makes no PMT call; otherwise one PMT call carrying PCR PID 0x100 and the listed entries; success happens exactly when the PMT fits and the sink accepts both calls; the PAT writer's counter advances exactly when the PAT call is accepted, the PMT writer's exactly when the PMT call is made and accepted |
| TsMuxer.WriteHeader | ts/muxer.go:187-208 | registers the audio argument, then the video argument; an unsupported codec fails before anything is written, and a stream registered before the failure stays; otherwise PAT and PMT follow: a PMT that does not fit fails with PmtTooLarge after an accepted PAT, a fitting PMT is written right after an accepted PAT, and the header succeeds exactly when the PMT fits and the sink accepts both calls; the PAT and PMT writers advance exactly as the PSI calls are accepted, and the padding flag is never changed |
| TsMuxer.AnnexB | ts/muxer.go:241-249 | the layout has two chunks per NAL unit: an AUD before unit 0, a start code before every later unit, then the unit itself |
| TsMuxer.AnnexBPayloads | ts/muxer.go:241-249 | removing the markers from the layout gives back exactly the NAL units, in order |
| TsMuxer.AnnexBAudOnce | ts/muxer.go:242-247 | the layout holds exactly one AUD when there is at least one unit, and none otherwise |
| TsMuxer.VideoScatter | ts/muxer.go:241-252 | the video scatter list has 1 + 2·(units) chunks, and it starts with the unbounded-length H264 PES header whose PTS is the time plus the composition offset and whose DTS is the time |
| TsMuxer.VideoScatterUnits | ts/muxer.go:230-249 | the units of a video access unit are SPS and PPS (key frames only) followed by the split NAL units, and the AUD occurs once unless the unit list is empty |
| TsMuxer.KeyFrameScatterPrefix | ts/muxer.go:231-249 | a key frame's scatter list begins PES header, AUD, SPS, start code, PPS |
| TsMuxer.VideoScatterNalu | ts/muxer.go:236-249 | the i-th split NAL unit sits at position 2(k+i)+2, where k is 2 on key frames and 0 otherwise; it is preceded by an AUD only when it is the first unit of a non-key frame, and by a start code otherwise |
| TsMuxer.WritePacket | ts/muxer.go:210-258 | adds one second to the time; AAC makes one call on the audio PID with [PES(length 7 + payload, PTS = time, DTS 0), ADTS(config, 1024, payload length), payload], PCR = time and sync set; H264 makes one call on the video PID with the video scatter list, PCR = time and sync equal to the key-frame flag; any other type does nothing; the call is accepted, and the packet succeeds, exactly when the sink accepts it; the other stream is untouched and only the target counter advances |
| Session.SlotFollowsType | ts/muxer.go:187-201 | a codec passed as the audio or as the video argument of WriteHeader yields the same result |
| Session.MisplacedVideoCodec | ts/muxer.go:67-76 | an H264 codec given as the audio argument becomes the video stream on 0x100 and leaves the audio slot as it was |
| Session.HeaderWithBothStreams | ts/muxer.go:127-208 | on a fresh muxer and a sink that accepts every call, an AAC plus H264 header writes exactly the PAT, then a PMT with PCR 0x100 and entries (ADTS-AAC, 0x101), (H264, 0x100) |
| Session.OversizedPmtAfterPat | ts/muxer.go:171-206 | when every codec of a header call is supported and the PMT of the streams it registers does not fit, the call fails with PmtTooLarge after exactly one accepted PAT call and no PMT call |
| Session.TrailerIdempotent | ts/muxer.go:95-120 | after a successful trailer, a second trailer writes nothing and succeeds |
| Session.CounterContinuity | ts/muxer.go:210-258 | on a sink that accepts every call, n access units of one stream make n accepted calls on that stream's PID; its counter advances by exactly the packets those calls emitted, and the other stream's counter is unchanged |

## Left out

- The byte sink (`io.Writer`) and the bytes themselves. A sink is an abstract log of writer calls plus a count of calls it still accepts. This covers every sink that fails from some call onward. A sink that fails once and later accepts calls again is not modelled, because the allowance cannot express it. The muxer keeps no error state, so after a failed write every operation can still be called, and the model allows that too.
- Concrete codec types: the model's `CodecData` is a closed variant, so a codec that reports type AAC or H264 always carries the matching configuration. The source only checks `Type()` on registration and later asserts the concrete `aacparser.CodecData` or `h264parser.CodecData` type (ts/muxer.go:216, ts/muxer.go:228). The panic for any other concrete type with those tags cannot be expressed and is not modelled.
- `SetWriter`: it only replaces the sink. In the model this is a record update and needs no operation.
- The `tsio` encoders (`FillPESHeader`, `FillPSI`, `PAT.Marshal`, `PMT.Marshal`) are not part of this model. Neither is the packetizer that cuts a scatter list into 188-byte packets with adaptation fields and PCR. Headers are symbolic chunks. `PMT.Len`, `PSIHeaderLength` and the packet count of a non-empty scatter list are opaque parameters. An empty scatter list is taken to be one stuffing packet.
- Tsio.WritePackets: when the sink rejects a call, the model leaves the writer's counter unchanged. The packet writer's source is not part of this model, so how far its counter advances before a failed write is not stated.
- The values of `PMT_PID` (taken as 0x1000), the PES stream ids and the PMT stream-type codes come from `tsio`, which is not part of this model. The model relies only on the PIDs being distinct. Stream ids and stream types are plain enumerations.
- `h264parser.SplitNALUs`, `FillADTSHeader`, `AUDBytes` and `StartCodeBytes` are not part of this model. The splitter is an opaque function, and its second result is discarded, as the source discards it. The ADTS header and the two markers are symbolic.
- Scratch-buffer reuse (`psidata`, `peshdr`, `tshdr`, `adtshdr`, `datav`, `nalus`) is left out. It is an allocation optimisation with no observable effect.
- The empty `NELLYMOSER` and `SPEEX` cases of `newStream` are not modelled separately. The membership check before them makes them unreachable, so they merge with the default branch.
- Calling `WritePacket` for a codec type whose slot is empty is a nil dereference in the source. Here it is a precondition, not a modelled panic.
- Timestamps are integer nanoseconds. `time.Duration` overflow is not modelled.

=== FILE: av.dfy ===
/**
 * The media-side types the muxer consumes: codec descriptors and access units
 * (the `av` package of the repository, reduced to what the muxer reads).
 */
module Av {

  newtype byte = x: int | 0 <= x < 256

  type Bytes = seq<byte>

  /** The codec type tag returned by `CodecData.Type()`; every codec other than
      H.264 and AAC (NELLYMOSER, SPEEX, ...) is one `OtherType`. */
  datatype CodecType = H264 | AAC | OtherType(id: nat)

  /** A codec descriptor. H.264 carries its SPS and PPS, AAC its decoder
      configuration (kept as opaque bytes); any other codec carries only its tag. */
  datatype CodecData =
    | H264Codec(sps: Bytes, pps: Bytes)
    | AacCodec(config: Bytes)
    | OtherCodec(id: nat)
  {
    function Type(): CodecType {
      match this
      case H264Codec(_, _) => H264
      case AacCodec(_) => AAC
      case OtherCodec(id) => OtherType(id)
    }
  }

  /** One access unit. Times are `time.Duration` values, i.e. integer nanoseconds. */
  datatype Packet = Packet(time: int, compositionTime: int, isKeyFrame: bool, data: Bytes)

  /** `time.Second` in nanoseconds. */
  const Second: int := 1_000_000_000
}

=== FILE: muxer.dfy ===
/**
 * The transport-stream muxer: stream registration, PAT/PMT emission, PES framing
 * of access units and end-of-session continuity-counter padding
 * (ts/muxer.go). The muxer is an immutable record; every operation returns the
 * next record together with its outcome.
 */
module TsMuxer {
  import opened Wrappers
  import opened Av
  import opened Tsio

  const VideoPid: Pid := 0x100
  const AudioPid: Pid := 0x101
  /** The PCR PID written into the PMT, whether or not a video stream exists. */
  const PcrPid: Pid := 0x100
  /** Capacity of the PSI scratch buffer: one transport packet. */
  const PsiBufferSize: nat := 188
  /** `aacparser.ADTSHeaderLength`. */
  const AdtsHeaderLength: nat := 7
  /** Samples per AAC frame passed to the ADTS header filler. */
  const AacFrameSamples: nat := 1024
  /** Added to every access unit's time before it is framed. */
  const TimestampBias: int := Second

  /** The codec types the muxer accepts. */
  const CodecTypes: seq<CodecType> := [H264, AAC]

  datatype Error = UnsupportedCodec(codecType: CodecType) | PmtTooLarge | WriteFailed

  /** A registered elementary stream: its codec, its PID and its packet writer. */
  datatype Stream = Stream(codec: CodecData, pid: Pid, tsw: TSWriter)

  datatype Muxer = Muxer(
    w: Sink,
    astream: Option<Stream>,
    vstream: Option<Stream>,
    paddingToMakeCounterCont: bool,
    tswpat: TSWriter,
    tswpmt: TSWriter)

  /** The state after an operation and the error it returned, if any. */
  datatype Step = Step(mux: Muxer, outcome: Outcome<Error>)

  predicate AudioSlot(s: Option<Stream>) {
    s.Some? ==> s.value.codec.AacCodec? && s.value.pid == AudioPid && s.value.tsw.pid == AudioPid
  }

  predicate VideoSlot(s: Option<Stream>) {
    s.Some? ==> s.value.codec.H264Codec? && s.value.pid == VideoPid && s.value.tsw.pid == VideoPid
  }

  /** What every reachable muxer satisfies: the audio slot only ever holds an AAC
      stream on the audio PID, the video slot an H.264 stream on the video PID,
      and the PSI writers sit on the PAT and PMT PIDs. */
  predicate Valid(m: Muxer) {
    && AudioSlot(m.astream)
    && VideoSlot(m.vstream)
    && m.tswpat.pid == PatPid
    && m.tswpmt.pid == PmtPid
  }

  /** Both muxers hold the same streams (codec and PID), whatever their counters. */
  predicate SameStreams(m: Muxer, m': Muxer) {
    && (m.astream.Some? <==> m'.astream.Some?)
    && (m.astream.Some? ==> m'.astream.value.codec == m.astream.value.codec && m'.astream.value.pid == m.astream.value.pid)
    && (m.vstream.Some? <==> m'.vstream.Some?)
    && (m.vstream.Some? ==> m'.vstream.value.codec == m.vstream.value.codec && m'.vstream.value.pid == m.vstream.value.pid)
  }

  /** The sink's log was only appended to. */
  predicate Extends(w: Sink, w': Sink) {
    |w.log| <= |w'.log| && w'.log[..|w.log|] == w.log
  }

  /** The fixed arguments of a stuffing call: empty scatter list, PCR 0, no sync, padding. */
  predicate IsPadding(x: Write, pid: Pid) {
    x.pid == pid && x.scatter == [] && x.pcr == 0 && !x.sync && x.paddata
  }

  // ---------------------------------------------------------------------------
  // Construction and stream registration

  /** `NewMuxer`: no streams, padding off, fresh PAT and PMT writers. */
  function NewMuxer(w: Sink): (m: Muxer)
    ensures Valid(m)
    ensures m.w == w && m.astream.None? && m.vstream.None? && !m.paddingToMakeCounterCont
    ensures m.tswpat.counter == 0 && m.tswpmt.counter == 0
  {
    Muxer(w, None, None, false, NewTSWriter(PatPid), NewTSWriter(PmtPid))
  }

  /** `newStream`: accepts H.264 and AAC only; the codec's type alone decides
      whether it lands in the video slot (PID 0x100) or the audio slot (PID 0x101),
      each with a fresh writer. Nothing is written to the sink. */
  function NewStream(m: Muxer, codec: CodecData): (r: Step)
    ensures r.outcome.Fail? <==> codec.Type() !in CodecTypes
    ensures r.outcome.Fail? ==> r.outcome.error == UnsupportedCodec(codec.Type()) && r.mux == m
    ensures codec.Type() == H264 ==>
      && r.mux.vstream == Some(Stream(codec, VideoPid, NewTSWriter(VideoPid)))
      && r.mux.astream == m.astream
    ensures codec.Type() == AAC ==>
      && r.mux.astream == Some(Stream(codec, AudioPid, NewTSWriter(AudioPid)))
      && r.mux.vstream == m.vstream
    ensures r.mux.w == m.w && r.mux.tswpat == m.tswpat && r.mux.tswpmt == m.tswpmt
    ensures r.mux.paddingToMakeCounterCont == m.paddingToMakeCounterCont
    ensures Valid(m) ==> Valid(r.mux)
  {
    if codec.Type() !in CodecTypes then
      Step(m, Fail(UnsupportedCodec(codec.Type())))
    else
      match codec.Type()
      case H264 =>
        Step(m.(vstream := Some(Stream(codec, VideoPid, NewTSWriter(VideoPid)))), Pass)
      case AAC =>
        Step(m.(astream := Some(Stream(codec, AudioPid, NewTSWriter(AudioPid)))), Pass)
      case OtherType(_) =>
        Step(m, Fail(UnsupportedCodec(codec.Type())))
  }

  // ---------------------------------------------------------------------------
  // Trailer padding

  /** How many one-packet stuffing calls bring a counter's low four bits back to 0. */
  function PadCount(counter: nat): (n: nat)
    ensures n < 16
    ensures (counter + n) % 16 == 0
    ensures counter % 16 == 0 <==> n == 0
  {
    (16 - counter % 16) % 16
  }

  /** `writePaddingTSPackets`: emits stuffing calls on the writer until its counter
      is 0 mod 16; the first rejected call ends it with a failure. */
  function Pad(env: Env, w: Sink, tsw: TSWriter): (r: Emitted)
    ensures r.tsw.pid == tsw.pid
    ensures Extends(w, r.sink)
    ensures |r.sink.log| <= |w.log| + PadCount(tsw.counter)
    ensures forall i | |w.log| <= i < |r.sink.log| :: IsPadding(r.sink.log[i], tsw.pid)
    ensures forall i | |w.log| <= i < |r.sink.log| :: r.sink.log[i].accepted <==> (r.ok || i < |r.sink.log| - 1)
    ensures r.ok ==> |r.sink.log| == |w.log| + PadCount(tsw.counter) && r.tsw.counter % 16 == 0
    ensures !r.ok ==> |r.sink.log| > |w.log|
    ensures r.tsw.counter + (if r.ok then 0 else 1) == tsw.counter + (|r.sink.log| - |w.log|)
    ensures r.ok <==> (w.allowance.None? || PadCount(tsw.counter) <= w.allowance.value)
    ensures w.allowance.None? ==> r.sink.allowance.None?
    ensures !r.ok ==> w.allowance.Some? && |r.sink.log| == |w.log| + w.allowance.value + 1
    ensures r.ok && w.allowance.Some? ==> r.sink.allowance == Some(w.allowance.value - PadCount(tsw.counter))
    decreases PadCount(tsw.counter)
  {
    if tsw.counter % 16 == 0 then
      Emitted(w, tsw, true)
    else
      var e := WritePackets(env, w, tsw, [], 0, false, true);
      if !e.ok then e
      else
        assert PadCount(e.tsw.counter) == PadCount(tsw.counter) - 1;
        Pad(env, e.sink, e.tsw)
  }

  /** The result of padding one optional stream slot. */
  datatype Padded = Padded(sink: Sink, slot: Option<Stream>, ok: bool)

  /** Pads a stream's writer if the slot holds a stream; an empty slot emits nothing. */
  function PadSlot(env: Env, w: Sink, slot: Option<Stream>): (r: Padded)
    ensures r.slot.Some? <==> slot.Some?
    ensures slot.Some? ==>
      && r.slot.value.codec == slot.value.codec && r.slot.value.pid == slot.value.pid
      && r.slot.value.tsw.pid == slot.value.tsw.pid
    ensures slot.None? ==> r == Padded(w, None, true)
    ensures w.allowance.None? ==> r.ok && r.sink.allowance.None?
  {
    if slot.None? then Padded(w, None, true)
    else
      var e := Pad(env, w, slot.value.tsw);
      Padded(e.sink, Some(slot.value.(tsw := e.tsw)), e.ok)
  }

  /** The number of stuffing calls a slot needs. */
  function SlotPadCount(slot: Option<Stream>): nat {
    if slot.None? then 0 else PadCount(slot.value.tsw.counter)
  }

  /** `WriteTrailer`: with padding on, pads the audio writer, then the video writer,
      stopping at the first rejected write. */
  function WriteTrailer(env: Env, m: Muxer): (r: Step)
    ensures !m.paddingToMakeCounterCont ==> r == Step(m, Pass)
    ensures SameStreams(m, r.mux)
    ensures Valid(m) ==> Valid(r.mux)
    ensures r.mux.paddingToMakeCounterCont == m.paddingToMakeCounterCont
    ensures r.mux.tswpat == m.tswpat && r.mux.tswpmt == m.tswpmt
    ensures Extends(m.w, r.mux.w)
    ensures |r.mux.w.log| <= |m.w.log| + SlotPadCount(m.astream) + SlotPadCount(m.vstream) <= |m.w.log| + 30
    ensures r.outcome.Fail? ==> r.outcome.error == WriteFailed
    ensures m.w.allowance.None? ==> r.outcome.Pass?
    ensures m.paddingToMakeCounterCont ==>
      (r.outcome.Pass? <==> m.w.allowance.None? || SlotPadCount(m.astream) + SlotPadCount(m.vstream) <= m.w.allowance.value)
    ensures Valid(m) && r.outcome.Pass? ==> forall i | |m.w.log| <= i < |r.mux.w.log| ::
      r.mux.w.log[i].pid == (if i < |m.w.log| + SlotPadCount(m.astream) then AudioPid else VideoPid)
    ensures Valid(m) ==> forall i | |m.w.log| <= i < |r.mux.w.log| ::
      && (r.mux.w.log[i].pid == AudioPid ==> m.astream.Some?)
      && (r.mux.w.log[i].pid == VideoPid ==> m.vstream.Some?)
    ensures m.paddingToMakeCounterCont && r.outcome.Pass? ==>
      && |r.mux.w.log| == |m.w.log| + SlotPadCount(m.astream) + SlotPadCount(m.vstream)
      && (r.mux.astream.Some? ==> r.mux.astream.value.tsw.counter % 16 == 0)
      && (r.mux.vstream.Some? ==> r.mux.vstream.value.tsw.counter % 16 == 0)
    ensures forall i | |m.w.log| <= i < |r.mux.w.log| ::
      r.mux.w.log[i].accepted <==> (r.outcome.Pass? || i < |r.mux.w.log| - 1)
    ensures r.outcome.Fail? ==> |r.mux.w.log| > |m.w.log|
    ensures Valid(m) ==> forall i | |m.w.log| <= i < |r.mux.w.log| ::
      IsPadding(r.mux.w.log[i], AudioPid) || IsPadding(r.mux.w.log[i], VideoPid)
    ensures Valid(m) ==> forall i, j | |m.w.log| <= i < j < |r.mux.w.log| ::
      r.mux.w.log[i].pid == VideoPid ==> r.mux.w.log[j].pid == VideoPid
  {
    if !m.paddingToMakeCounterCont then Step(m, Pass)
    else
      var a := PadSlot(env, m.w, m.astream);
      var m1 := m.(w := a.sink, astream := a.slot);
      if !a.ok then Step(m1, Fail(WriteFailed))
      else
        var v := PadSlot(env, m1.w, m.vstream);
        Step(m1.(w := v.sink, vstream := v.slot), if v.ok then Pass else Fail(WriteFailed))
  }

  // ---------------------------------------------------------------------------
  // PAT and PMT

  /** The single-program PAT: program 1, whose PMT is on `PmtPid`. */
  const ThePat: Pat := Pat([PatEntry(1, PmtPid)])

  /** The PMT entry contributed by the audio slot. */
  function AudioInfo(s: Option<Stream>): seq<ElementaryStreamInfo> {
    if s.Some? && s.value.codec.Type() == AAC then [ElementaryStreamInfo(ElementaryStreamTypeAdtsAAC, s.value.pid)] else []
  }

  /** The PMT entry contributed by the video slot. */
  function VideoInfo(s: Option<Stream>): seq<ElementaryStreamInfo> {
    if s.Some? && s.value.codec.Type() == H264 then [ElementaryStreamInfo(ElementaryStreamTypeH264, s.value.pid)] else []
  }

  /** The PMT's elementary stream list: the audio stream's entry, then the video
      stream's, each present exactly when its slot is filled. */
  function PmtInfos(m: Muxer): (r: seq<ElementaryStreamInfo>)
    ensures |r| <= 2
    ensures forall e | e in r ::
      || (e.streamType == ElementaryStreamTypeAdtsAAC && m.astream.Some? && e.elementaryPid == m.astream.value.pid)
      || (e.streamType == ElementaryStreamTypeH264 && m.vstream.Some? && e.elementaryPid == m.vstream.value.pid)
    ensures Valid(m) ==>
      && (ElementaryStreamInfo(ElementaryStreamTypeAdtsAAC, AudioPid) in r <==> m.astream.Some?)
      && (ElementaryStreamInfo(ElementaryStreamTypeH264, VideoPid) in r <==> m.vstream.Some?)
      && |r| == (if m.astream.Some? then 1 else 0) + (if m.vstream.Some? then 1 else 0)
    ensures |r| == 2 ==> r[0].streamType == ElementaryStreamTypeAdtsAAC && r[1].streamType == ElementaryStreamTypeH264
  {
    AudioInfo(m.astream) + VideoInfo(m.vstream)
  }

  /** The PMT `WritePATPMT` builds. */
  function ThePmt(m: Muxer): Pmt {
    Pmt(PcrPid, PmtInfos(m))
  }

  /** The PMT and its PSI header fit in the one-packet PSI buffer. */
  predicate PmtFits(env: Env, pmt: Pmt) {
    env.pmtLen(pmt) + env.psiHeaderLength <= PsiBufferSize
  }

  /** `WritePATPMT`: one PAT call on the PAT writer, then (if the PAT was accepted
      and the PMT fits in one packet) one PMT call on the PMT writer. */
  function WritePatPmt(env: Env, m: Muxer): (r: Step)
    ensures r.mux.astream == m.astream && r.mux.vstream == m.vstream
    ensures r.mux.paddingToMakeCounterCont == m.paddingToMakeCounterCont
    ensures Valid(m) ==> Valid(r.mux)
    ensures Extends(m.w, r.mux.w)
    ensures |m.w.log| + 1 <= |r.mux.w.log| <= |m.w.log| + 2
    ensures r.mux.w.log[|m.w.log|] == Write(m.tswpat.pid, [PatSection(ThePat)], 0, false, true, Accepts(m.w))
    ensures |r.mux.w.log| == |m.w.log| + 2 <==> Accepts(m.w) && PmtFits(env, ThePmt(m))
    ensures |r.mux.w.log| == |m.w.log| + 2 ==>
      && var x := r.mux.w.log[|m.w.log| + 1];
      && x.pid == m.tswpmt.pid && x.scatter == [PmtSection(Pmt(0x100, PmtInfos(m)))]
      && x.pcr == 0 && !x.sync && x.paddata
      && (x.accepted <==> r.outcome.Pass?)
    ensures r.outcome == Fail(PmtTooLarge) <==> Accepts(m.w) && !PmtFits(env, ThePmt(m))
    ensures r.outcome.Pass? ==> forall i | |m.w.log| <= i < |r.mux.w.log| :: r.mux.w.log[i].accepted
    ensures r.outcome.Pass? <==> PmtFits(env, ThePmt(m)) && (m.w.allowance.None? || 2 <= m.w.allowance.value)
    ensures r.outcome.Fail? ==> r.outcome.error in {PmtTooLarge, WriteFailed}
    ensures r.mux.tswpat == m.tswpat.(counter := m.tswpat.counter +
      (if Accepts(m.w) then PacketsFor(env, [PatSection(ThePat)]) else 0))
    ensures r.mux.tswpmt == if r.outcome.Pass?
      then m.tswpmt.(counter := m.tswpmt.counter + PacketsFor(env, [PmtSection(ThePmt(m))]))
      else m.tswpmt
  {
    var pat := WritePackets(env, m.w, m.tswpat, [PatSection(ThePat)], 0, false, true);
    var m1 := m.(w := pat.sink, tswpat := pat.tsw);
    if !pat.ok then Step(m1, Fail(WriteFailed))
    else
      var pmt := ThePmt(m);
      if !PmtFits(env, pmt) then Step(m1, Fail(PmtTooLarge))
      else
        var e := WritePackets(env, m1.w, m1.tswpmt, [PmtSection(pmt)], 0, false, true);
        Step(m1.(w := e.sink, tswpmt := e.tsw), if e.ok then Pass else Fail(WriteFailed))
  }

  // ---------------------------------------------------------------------------
  // Session header

  /** Registers the codec in `codec`, if any. */
  function Register(m: Muxer, codec: Option<CodecData>): Step {
    if codec.None? then Step(m, Pass) else NewStream(m, codec.value)
  }

  predicate Supported(codec: Option<CodecData>) {
    codec.Some? ==> codec.value.Type() in CodecTypes
  }

  /** `WriteHeader`: registers the audio argument, then the video argument, then
      writes PAT and PMT. A rejected codec returns before anything is written,
      keeping any stream registered before it. */
  function WriteHeader(env: Env, m: Muxer, astream: Option<CodecData>, vstream: Option<CodecData>): (r: Step)
    ensures Valid(m) ==> Valid(r.mux)
    ensures !Supported(astream) ==> r == Step(m, Fail(UnsupportedCodec(astream.value.Type())))
    ensures Supported(astream) && !Supported(vstream) ==>
      && r.outcome == Fail(UnsupportedCodec(vstream.value.Type()))
      && r.mux == Register(m, astream).mux
      && r.mux.w == m.w
    ensures Supported(astream) && Supported(vstream) ==>
      && var reg := Register(Register(m, astream).mux, vstream).mux;
      && r.mux.astream == reg.astream && r.mux.vstream == reg.vstream
      && |r.mux.w.log| > |m.w.log|
      && r.mux.w.log[|m.w.log|] == Write(m.tswpat.pid, [PatSection(ThePat)], 0, false, true, Accepts(m.w))
      && r.mux.tswpat == m.tswpat.(counter := m.tswpat.counter +
           (if Accepts(m.w) then PacketsFor(env, [PatSection(ThePat)]) else 0))
      && r.mux.tswpmt == (if r.outcome.Pass?
           then m.tswpmt.(counter := m.tswpmt.counter + PacketsFor(env, [PmtSection(ThePmt(reg))]))
           else m.tswpmt)
      && (r.outcome == Fail(PmtTooLarge) <==> Accepts(m.w) && !PmtFits(env, ThePmt(reg)))
      && (r.outcome.Pass? <==> PmtFits(env, ThePmt(reg)) && (m.w.allowance.None? || 2 <= m.w.allowance.value))
      && (Accepts(m.w) && PmtFits(env, ThePmt(reg)) ==>
            && |r.mux.w.log| == |m.w.log| + 2
            && r.mux.w.log[|m.w.log| + 1] == Write(m.tswpmt.pid, [PmtSection(ThePmt(reg))], 0, false, true, r.outcome.Pass?))
    ensures r.outcome.Pass? ==>
      && Supported(astream) && Supported(vstream)
      && |r.mux.w.log| == |m.w.log| + 2
      && r.mux.w.log[|m.w.log| + 1].scatter == [PmtSection(ThePmt(r.mux))]
    ensures Extends(m.w, r.mux.w)
    ensures r.mux.paddingToMakeCounterCont == m.paddingToMakeCounterCont
  {
    var a := Register(m, astream);
    if a.outcome.Fail? then a
    else
      var v := Register(a.mux, vstream);
      if v.outcome.Fail? then v
      else WritePatPmt(env, v.mux)
  }

  // ---------------------------------------------------------------------------
  // PES framing

  /** The marker `WritePacket` puts before the i-th NAL unit. */
  function Marker(i: nat): Chunk {
    if i == 0 then Aud else StartCode
  }

  /** The Annex-B layout of a list of NAL units: an AUD before the first unit and a
      start code before every later one, each followed by the unit itself. */
  function AnnexB(units: seq<Bytes>): (r: seq<Chunk>)
    ensures |r| == 2 * |units|
    ensures forall i | 0 <= i < |units| :: r[2 * i] == Marker(i) && r[2 * i + 1] == Data(units[i])
  {
    if |units| == 0 then []
    else AnnexB(units[..|units| - 1]) + [Marker(|units| - 1), Data(units[|units| - 1])]
  }

  /** The payload slices of a scatter list, in order, with every marker and header dropped. */
  function Payloads(cs: seq<Chunk>): seq<Bytes> {
    if |cs| == 0 then []
    else Payloads(cs[..|cs| - 1]) + (if cs[|cs| - 1].Data? then [cs[|cs| - 1].bytes] else [])
  }

  /** Dropping the markers from an Annex-B layout gives back the NAL units. */
  lemma {:induction false} AnnexBPayloads(units: seq<Bytes>)
    ensures Payloads(AnnexB(units)) == units
  {
    if |units| > 0 {
      var init := units[..|units| - 1];
      var prefix := AnnexB(init);
      var r := AnnexB(units);
      assert r == prefix + [Marker(|units| - 1), Data(units[|units| - 1])];
      assert r[..|r| - 1] == prefix + [Marker(|units| - 1)];
      assert (prefix + [Marker(|units| - 1)])[..|prefix|] == prefix;
      AnnexBPayloads(init);
      assert units == init + [units[|units| - 1]];
    }
  }

  /** An Annex-B layout carries exactly one AUD when it has any unit, none otherwise. */
  lemma {:induction false} AnnexBAudOnce(units: seq<Bytes>)
    ensures multiset(AnnexB(units))[Aud] == if |units| == 0 then 0 else 1
  {
    if |units| > 0 {
      var init := units[..|units| - 1];
      AnnexBAudOnce(init);
      assert AnnexB(units) == AnnexB(init) + [Marker(|units| - 1), Data(units[|units| - 1])];
    }
  }

  /** The NAL units of a video access unit: SPS and PPS first on a key frame,
      then the units the splitter found in the payload. */
  function VideoUnits(codec: CodecData, isKeyFrame: bool, nalus: seq<Bytes>): seq<Bytes>
    requires codec.H264Codec?
  {
    (if isKeyFrame then [codec.sps, codec.pps] else []) + nalus
  }

  /** The scatter list of a video access unit: the unbounded-length PES header with
      PTS = time + composition offset and DTS = time, then the Annex-B units. */
  function VideoScatter(codec: CodecData, isKeyFrame: bool, nalus: seq<Bytes>, time: int, compositionTime: int): (r: seq<Chunk>)
    requires codec.H264Codec?
    ensures |r| == 1 + 2 * |VideoUnits(codec, isKeyFrame, nalus)|
    ensures r[0] == PesHeader(StreamIdH264, -1, time + compositionTime, time)
  {
    [PesHeader(StreamIdH264, -1, time + compositionTime, time)] + AnnexB(VideoUnits(codec, isKeyFrame, nalus))
  }

  /** The units of a video scatter list are the SPS and PPS (on a key frame) and the
      payload's NAL units, and exactly one AUD marks the access unit when it has any. */
  lemma VideoScatterUnits(codec: CodecData, isKeyFrame: bool, nalus: seq<Bytes>, time: int, compositionTime: int)
    requires codec.H264Codec?
    ensures var r := VideoScatter(codec, isKeyFrame, nalus, time, compositionTime);
      && |r| == 1 + 2 * ((if isKeyFrame then 2 else 0) + |nalus|)
      && Payloads(r[1..]) == (if isKeyFrame then [codec.sps, codec.pps] else []) + nalus
      && multiset(r)[Aud] == if !isKeyFrame && |nalus| == 0 then 0 else 1
  {
    var units := VideoUnits(codec, isKeyFrame, nalus);
    var r := VideoScatter(codec, isKeyFrame, nalus, time, compositionTime);
    assert r == [r[0]] + AnnexB(units);
    assert r[1..] == AnnexB(units);
    AnnexBPayloads(units);
    AnnexBAudOnce(units);
  }

  /** On a key frame the scatter list starts PES header, AUD, SPS, start code, PPS. */
  lemma KeyFrameScatterPrefix(codec: CodecData, nalus: seq<Bytes>, time: int, compositionTime: int)
    requires codec.H264Codec?
    ensures var r := VideoScatter(codec, true, nalus, time, compositionTime);
      r[..5] == [PesHeader(StreamIdH264, -1, time + compositionTime, time), Aud, Data(codec.sps), StartCode, Data(codec.pps)]
  {
    var units := VideoUnits(codec, true, nalus);
    var r := VideoScatter(codec, true, nalus, time, compositionTime);
    assert units[0] == codec.sps && units[1] == codec.pps;
    assert r[1..] == AnnexB(units);
    assert r[1] == AnnexB(units)[2 * 0];
    assert r[2] == AnnexB(units)[2 * 0 + 1];
    assert r[3] == AnnexB(units)[2 * 1];
    assert r[4] == AnnexB(units)[2 * 1 + 1];
  }

  /** The payload's i-th NAL unit sits at a fixed place, after an AUD if it is the
      very first unit of a non-key frame and after a start code otherwise. */
  lemma VideoScatterNalu(codec: CodecData, isKeyFrame: bool, nalus: seq<Bytes>, time: int, compositionTime: int, i: nat)
    requires codec.H264Codec?
    requires i < |nalus|
    ensures var r := VideoScatter(codec, isKeyFrame, nalus, time, compositionTime);
      var j := 2 * ((if isKeyFrame then 2 else 0) + i) + 1;
      j + 1 < |r| && r[j] == (if !isKeyFrame && i == 0 then Aud else StartCode) && r[j + 1] == Data(nalus[i])
  {
    var units := VideoUnits(codec, isKeyFrame, nalus);
    var k := if isKeyFrame then 2 else 0;
    var a := AnnexB(units);
    assert units[k + i] == nalus[i];
    assert a[2 * (k + i)] == Marker(k + i);
    assert a[2 * (k + i) + 1] == Data(nalus[i]);
  }

  /** The scatter list of an audio access unit: PES header declaring the ADTS header
      plus payload length with PTS = time and no DTS, the ADTS header, the payload. */
  function AudioScatter(codec: CodecData, data: Bytes, time: int): seq<Chunk>
    requires codec.AacCodec?
  {
    [PesHeader(StreamIdAAC, AdtsHeaderLength + |data|, time, 0),
     AdtsHeader(codec.config, AacFrameSamples, |data|),
     Data(data)]
  }

  function OutcomeOf(ok: bool): Outcome<Error> {
    if ok then Pass else Fail(WriteFailed)
  }

  /** `WritePacket`: frames one access unit of the stream whose codec type
      `cstream` names, with its time shifted by one second, and hands it to that
      stream's writer in a single call. A codec type other than H.264 or AAC is
      ignored. The slot of that type must have been registered. */
  function WritePacket(env: Env, m: Muxer, pkt: Packet, cstream: CodecData): (r: Step)
    requires Valid(m)
    requires cstream.Type() == AAC ==> m.astream.Some?
    requires cstream.Type() == H264 ==> m.vstream.Some?
    ensures Valid(r.mux) && SameStreams(m, r.mux)
    ensures r.mux.tswpat == m.tswpat && r.mux.tswpmt == m.tswpmt
    ensures r.mux.paddingToMakeCounterCont == m.paddingToMakeCounterCont
    ensures Extends(m.w, r.mux.w)
    ensures cstream.Type() !in CodecTypes ==> r == Step(m, Pass)
    ensures cstream.Type() in CodecTypes ==>
      && |r.mux.w.log| == |m.w.log| + 1
      && (r.outcome.Pass? <==> r.mux.w.log[|m.w.log|].accepted)
      && r.mux.w.log[|m.w.log|].accepted == Accepts(m.w)
    ensures m.w.allowance.None? ==> r.mux.w.allowance.None?
    ensures r.outcome.Fail? ==> r.outcome.error == WriteFailed
    ensures cstream.Type() == AAC ==>
      && var x := r.mux.w.log[|m.w.log|];
      && var t := pkt.time + Second;
      && x.pid == AudioPid
      && x.scatter == [PesHeader(StreamIdAAC, 7 + |pkt.data|, t, 0),
                       AdtsHeader(m.astream.value.codec.config, 1024, |pkt.data|),
                       Data(pkt.data)]
      && x.pcr == t && x.sync && !x.paddata
      && r.mux.vstream == m.vstream
      && r.mux.astream.value.tsw.counter ==
           m.astream.value.tsw.counter + (if x.accepted then PacketsFor(env, x.scatter) else 0)
    ensures cstream.Type() == H264 ==>
      && var x := r.mux.w.log[|m.w.log|];
      && var t := pkt.time + Second;
      && x.pid == VideoPid
      && x.scatter == VideoScatter(m.vstream.value.codec, pkt.isKeyFrame, env.splitNalus(pkt.data), t, pkt.compositionTime)
      && x.pcr == t && x.sync == pkt.isKeyFrame && !x.paddata
      && r.mux.astream == m.astream
      && r.mux.vstream.value.tsw.counter ==
           m.vstream.value.tsw.counter + (if x.accepted then PacketsFor(env, x.scatter) else 0)
  {
    var time := pkt.time + TimestampBias;
    match cstream.Type()
    case AAC =>
      var s := m.astream.value;
      var e := WritePackets(env, m.w, s.tsw, AudioScatter(s.codec, pkt.data, time), time, true, false);
      Step(m.(w := e.sink, astream := Some(s.(tsw := e.tsw))), OutcomeOf(e.ok))
    case H264 =>
      var s := m.vstream.value;
      var nalus := env.splitNalus(pkt.data);
      var scatter := VideoScatter(s.codec, pkt.isKeyFrame, nalus, time, pkt.compositionTime);
      var e := WritePackets(env, m.w, s.tsw, scatter, time, pkt.isKeyFrame, false);
      Step(m.(w := e.sink, vstream := Some(s.(tsw := e.tsw))), OutcomeOf(e.ok))
    case OtherType(_) =>
      Step(m, Pass)
  }
}

=== FILE: session.dfy ===
/**
 * Properties of whole muxing sessions: several muxer calls in a row.
 */
module Session {
  import opened Wrappers
  import opened Av
  import opened Tsio
  import opened TsMuxer

  /** The slot a codec lands in depends on its type only: passing it as the audio
      argument or as the video argument of `WriteHeader` has the same effect. */
  lemma SlotFollowsType(env: Env, m: Muxer, codec: CodecData)
    ensures WriteHeader(env, m, Some(codec), None) == WriteHeader(env, m, None, Some(codec))
  {
  }

  /** An H.264 codec handed over as the audio argument still becomes the video
      stream, and the audio slot stays as it was. */
  lemma MisplacedVideoCodec(env: Env, m: Muxer, sps: Bytes, pps: Bytes)
    requires Valid(m)
    ensures var r := WriteHeader(env, m, Some(H264Codec(sps, pps)), None);
      && r.mux.vstream == Some(Stream(H264Codec(sps, pps), VideoPid, NewTSWriter(VideoPid)))
      && r.mux.astream == m.astream
  {
  }

  /** A header with one AAC and one H.264 codec on a fresh muxer and a sink that
      accepts everything writes exactly the PAT, then a PMT listing the audio
      stream on 0x101 and the video stream on 0x100 with PCR on 0x100. */
  lemma HeaderWithBothStreams(env: Env, config: Bytes, sps: Bytes, pps: Bytes)
    requires PmtFits(env, Pmt(0x100, [ElementaryStreamInfo(ElementaryStreamTypeAdtsAAC, 0x101),
                                      ElementaryStreamInfo(ElementaryStreamTypeH264, 0x100)]))
    ensures var r := WriteHeader(env, NewMuxer(Sink([], None)), Some(AacCodec(config)), Some(H264Codec(sps, pps)));
      && r.outcome == Pass
      && r.mux.w.log == [
           Write(PatPid, [PatSection(Pat([PatEntry(1, PmtPid)]))], 0, false, true, true),
           Write(PmtPid, [PmtSection(Pmt(0x100, [ElementaryStreamInfo(ElementaryStreamTypeAdtsAAC, 0x101),
                                                 ElementaryStreamInfo(ElementaryStreamTypeH264, 0x100)]))],
                 0, false, true, true)]
  {
    var m0 := NewMuxer(Sink([], None));
    var a := NewStream(m0, AacCodec(config));
    var v := NewStream(a.mux, H264Codec(sps, pps));
    assert PmtInfos(v.mux) == [ElementaryStreamInfo(ElementaryStreamTypeAdtsAAC, 0x101),
                               ElementaryStreamInfo(ElementaryStreamTypeH264, 0x100)];
  }

  /** A PMT too large for one packet fails the header after the PAT went out,
      and no PMT call is made, whichever streams the same call registered first. */
  lemma OversizedPmtAfterPat(env: Env, m: Muxer, a: Option<CodecData>, v: Option<CodecData>)
    requires Valid(m) && Accepts(m.w)
    requires Supported(a) && Supported(v)
    requires !PmtFits(env, ThePmt(Register(Register(m, a).mux, v).mux))
    ensures var r := WriteHeader(env, m, a, v);
      && r.outcome == Fail(PmtTooLarge)
      && r.mux.w.log == m.w.log + [Write(PatPid, [PatSection(ThePat)], 0, false, true, true)]
  {
    var r := WriteHeader(env, m, a, v);
    assert |r.mux.w.log| == |m.w.log| + 1;
    assert r.mux.w.log == r.mux.w.log[..|m.w.log|] + [r.mux.w.log[|m.w.log|]];
  }

  /** A successful padded trailer leaves every counter aligned, so a second
      trailer writes nothing. */
  lemma TrailerIdempotent(env: Env, m: Muxer)
    requires WriteTrailer(env, m).outcome.Pass?
    ensures var m' := WriteTrailer(env, m).mux;
      WriteTrailer(env, m') == Step(m', Pass)
  {
    var m' := WriteTrailer(env, m).mux;
    if m'.paddingToMakeCounterCont {
      assert SlotPadCount(m'.astream) == 0 && SlotPadCount(m'.vstream) == 0;
      var r := WriteTrailer(env, m');
      assert |r.mux.w.log| == |m'.w.log|;
    }
  }

  /** Writes access units of one codec type in order, stopping at the first error,
      as a caller calling `WritePacket` repeatedly does. */
  function Feed(env: Env, m: Muxer, pkts: seq<Packet>, cstream: CodecData): (r: Step)
    requires Valid(m)
    requires cstream.Type() == AAC ==> m.astream.Some?
    requires cstream.Type() == H264 ==> m.vstream.Some?
    ensures Valid(r.mux) && SameStreams(m, r.mux)
    ensures Extends(m.w, r.mux.w)
    decreases |pkts|
  {
    if |pkts| == 0 then Step(m, Pass)
    else
      var s := WritePacket(env, m, pkts[0], cstream);
      if s.outcome.Fail? then s else Feed(env, s.mux, pkts[1..], cstream)
  }

  /** The continuity counter of the stream a codec type selects. */
  function SlotCounter(m: Muxer, t: CodecType): nat
    requires t == AAC ==> m.astream.Some?
    requires t == H264 ==> m.vstream.Some?
  {
    if t == AAC then m.astream.value.tsw.counter
    else if t == H264 then m.vstream.value.tsw.counter
    else 0
  }

  /** The transport packets a run of logged writer calls emitted. */
  function PacketTotal(env: Env, log: seq<Write>): nat {
    if |log| == 0 then 0 else PacketsFor(env, log[0].scatter) + PacketTotal(env, log[1..])
  }

  /** On a sink that accepts every call, a run of access units of one stream makes
      one accepted call per unit on that stream's PID; the stream's counter advances
      by exactly the number of packets those calls emitted, and the other stream's
      writer, and so its counter, is untouched. */
  lemma {:induction false} CounterContinuity(env: Env, m: Muxer, pkts: seq<Packet>, cstream: CodecData)
    requires Valid(m) && m.w.allowance.None?
    requires cstream.Type() == AAC ==> m.astream.Some?
    requires cstream.Type() == H264 ==> m.vstream.Some?
    requires cstream.Type() in CodecTypes
    decreases |pkts|
    ensures var r := Feed(env, m, pkts, cstream);
      && r.outcome.Pass?
      && r.mux.w.allowance.None?
      && |r.mux.w.log| == |m.w.log| + |pkts|
      && (forall i | |m.w.log| <= i < |r.mux.w.log| ::
            r.mux.w.log[i].accepted
            && r.mux.w.log[i].pid == (if cstream.Type() == AAC then AudioPid else VideoPid))
      && SlotCounter(r.mux, cstream.Type()) == SlotCounter(m, cstream.Type()) + PacketTotal(env, r.mux.w.log[|m.w.log|..])
      && (cstream.Type() == AAC ==> r.mux.vstream == m.vstream)
      && (cstream.Type() == H264 ==> r.mux.astream == m.astream)
  {
    var r := Feed(env, m, pkts, cstream);
    if |pkts| == 0 {
      assert r.mux.w.log[|m.w.log|..] == [];
    } else {
      var s := WritePacket(env, m, pkts[0], cstream);
      assert s.outcome.Pass?;
      CounterContinuity(env, s.mux, pkts[1..], cstream);
      assert r == Feed(env, s.mux, pkts[1..], cstream);
      var tail := r.mux.w.log[|m.w.log|..];
      assert r.mux.w.log[..|s.mux.w.log|] == s.mux.w.log;
      assert tail[0] == s.mux.w.log[|m.w.log|];
      assert tail[1..] == r.mux.w.log[|s.mux.w.log|..];
    }
  }
}

=== FILE: tsio.dfy ===
/**
 * The transport-stream collaborators the muxer drives, stated abstractly.
 *
 * The byte encoders (PES/PSI/ADTS header fillers, PAT/PMT marshalling) are
 * represented by symbolic `Chunk` constructors: a scatter list is a sequence of
 * such chunks, and two chunks are the same exactly when they were built from the
 * same arguments. The sink is an append-only log of packet-writer calls; each call
 * is accepted or rejected, and a sink may be given a finite allowance of calls
 * after which it rejects every further call.
 */
module Tsio {
  import opened Wrappers
  import opened Av

  /** A 13-bit packet identifier. */
  type Pid = p: int | 0 <= p < 0x2000

  const PatPid: Pid := 0
  /** The reserved PID the PAT advertises for the single program's PMT. */
  const PmtPid: Pid := 0x1000

  /** PES stream ids the muxer uses. */
  datatype StreamId = StreamIdAAC | StreamIdH264

  /** PMT elementary stream type codes the muxer uses. */
  datatype StreamType = ElementaryStreamTypeAdtsAAC | ElementaryStreamTypeH264

  datatype PatEntry = PatEntry(programNumber: nat, programMapPid: Pid)
  datatype Pat = Pat(entries: seq<PatEntry>)

  datatype ElementaryStreamInfo = ElementaryStreamInfo(streamType: StreamType, elementaryPid: Pid)
  datatype Pmt = Pmt(pcrPid: Pid, infos: seq<ElementaryStreamInfo>)

  /** One slice of a scatter list. */
  datatype Chunk =
      /** A PSI section: the PSI header from `FillPSI` followed by the marshalled PAT. */
    | PatSection(pat: Pat)
      /** A PSI section holding the marshalled PMT. */
    | PmtSection(pmt: Pmt)
      /** `FillPESHeader(streamId, length, pts, dts)`; a length of -1 means unbounded. */
    | PesHeader(streamId: StreamId, length: int, pts: int, dts: int)
      /** `FillADTSHeader(config, samples, length)`. */
    | AdtsHeader(config: Bytes, samples: nat, frameLength: nat)
      /** The access unit delimiter bytes. */
    | Aud
      /** The Annex-B start code bytes. */
    | StartCode
      /** Caller-supplied payload bytes. */
    | Data(bytes: Bytes)

  /** One `TSWriter.WritePackets` call as the sink saw it. */
  datatype Write = Write(pid: Pid, scatter: seq<Chunk>, pcr: int, sync: bool, paddata: bool, accepted: bool)

  /** The byte sink. `allowance` is `None` for a sink that never fails and
      `Some(k)` for one that accepts `k` more calls and rejects the rest. */
  datatype Sink = Sink(log: seq<Write>, allowance: Option<nat>)

  /** A per-PID packet writer; `counter` is `ContinuityCounter`, whose low four
      bits go into every packet header. */
  datatype TSWriter = TSWriter(pid: Pid, counter: nat)

  /** The opaque library behaviour the muxer depends on. */
  datatype Env = Env(
    /** `PMT.Len()`: the marshalled length of a PMT. */
    pmtLen: Pmt -> nat,
    /** `tsio.PSIHeaderLength`. */
    psiHeaderLength: nat,
    /** How many transport packets `WritePackets` cuts a non-empty scatter list into. */
    packets: seq<Chunk> -> nat,
    /** `h264parser.SplitNALUs`: the NAL units of an access unit's payload. */
    splitNalus: Bytes -> seq<Bytes>)

  /** The result of one writer call: the new sink and writer, and whether the sink accepted it. */
  datatype Emitted = Emitted(sink: Sink, tsw: TSWriter, ok: bool)

  /** A fresh writer, as `NewTSWriter(pid)` builds it. */
  function NewTSWriter(pid: Pid): (w: TSWriter)
    ensures w.pid == pid && w.counter == 0
  {
    TSWriter(pid, 0)
  }

  predicate Accepts(s: Sink) {
    s.allowance.None? || s.allowance.value > 0
  }

  /** Packets emitted for a scatter list: an empty list is one stuffing packet. */
  function PacketsFor(env: Env, scatter: seq<Chunk>): nat {
    if scatter == [] then 1 else env.packets(scatter)
  }

  /** `TSWriter.WritePackets`: logs the call on the writer's PID; when the sink
      accepts it, the continuity counter advances by one per packet emitted. */
  function WritePackets(env: Env, sink: Sink, tsw: TSWriter, scatter: seq<Chunk>, pcr: int, sync: bool, paddata: bool): (r: Emitted)
    ensures r.ok <==> Accepts(sink)
    ensures r.sink.log == sink.log + [Write(tsw.pid, scatter, pcr, sync, paddata, r.ok)]
    ensures r.tsw.pid == tsw.pid
    ensures r.ok ==> r.tsw.counter == tsw.counter + PacketsFor(env, scatter)
    ensures !r.ok ==> r.tsw == tsw && r.sink.allowance == sink.allowance
    ensures sink.allowance.None? ==> r.sink.allowance.None?
  {
    if !Accepts(sink) then
      Emitted(sink.(log := sink.log + [Write(tsw.pid, scatter, pcr, sync, paddata, false)]), tsw, false)
    else
      var allowance := if sink.allowance.None? then None else Some(sink.allowance.value - 1);
      Emitted(Sink(sink.log + [Write(tsw.pid, scatter, pcr, sync, paddata, true)], allowance),
              tsw.(counter := tsw.counter + PacketsFor(env, scatter)), true)
  }
}

=== FILE: wrappers.dfy ===
/** Option and Outcome datatypes used across the muxer model. */
module Wrappers {

  /** An optional value: the model's stand-in for a Go pointer that may be nil. */
  datatype Option<+T> = None | Some(value: T)

  /** The result of an operation that produces no value but may fail, like a Go `error` return. */
  datatype Outcome<+E> = Pass | Fail(error: E)
}
